=== FILE: README.md ===
# Gemini Navigator: tab-title reconciler

A Dafny model of the core of the Gemini Navigator userscript (`content.js`).
The script keeps the browser tab title of the Gemini web app pinned to a title
derived from the conversation. The host app keeps resetting that title to a
placeholder such as "My content".

The model covers the following parts:

- **Title sentinel.** `enforceTitle`, the observer on `<title>`, `syncTitleToTab`,
  the observer on `.conversation-title`, the title part of `updateSystem`, and
  `onUrlChange` with the history hooks. These work by changing the module-level
  `state` object and `document.title`. The class `Sentinel.TitleSentinel` holds
  those fields and performs each handler in place. Each timer the script arms
  becomes an explicit method that fires it:
  - `ClearGuardTick` for the zero-delay timer that lowers `isManualUpdate`;
  - `FirePendingSync` for the title-sync debounce;
  - `FireScheduledUpdate` for the update debounce.
  
  Writes by the host page are the method `HostSetTitle`.
- **Transitions over values.** Module `Reconciler` gives each handler as a
  transition function on a `State` value. Every method of the class is proved to
  make exactly that transition, via `Snap() == F(old(Snap()), …)`. The properties of
  runs are lemmas over these functions: echo suppression, reset recovery, no write
  loop, the navigation reset, last-write-wins of the title sync, and the
  end-to-end scenario.
- **Pure helpers.** These are the placeholder test over `CONFIG.genericTitles`, the
  whitespace normalisation of `extractText`, `split('\n')[0]`, the truncations to 60
  and 40 characters, the render-skip signature, and the read of `.conversation-title`.
- **Selector resolver.** `findUserQueries` is a loop over `CONFIG.selectors` with an
  early return. It is modelled over abstract elements. Each element has its live text,
  its text once the noise is removed, and whether its `offsetParent` is not null.
  `document.querySelectorAll` is a function parameter.

Strings are `seq<char>`. A JavaScript length counts UTF-16 code units, and the model
counts characters instead. `IsSpace` is the set of white-space and line-terminator
code points of the Basic Multilingual Plane. This is the set that `\s` matches and
that `trim()` removes.

The model follows the code, including where the code does other than its own
comments and log messages say:

- `findUserQueries` returns `undefined` when no selector has a visible match
  (content.js:244). `updateSystem` then reads
  `queries.length` (content.js:421), which throws. The rest of that update is
  skipped, including the title step, even though the comment at content.js:456
  says that step always runs. `Reconciler.Updated` and
  `Sentinel.TitleSentinel.UpdateSystem` leave the state unchanged in that case.
  For the same reason, the "waiting for conversation" branch (content.js:421-422)
  can never run. A found list is never empty.
- Navigation clears only the derived title (content.js:513), although its log
  message (content.js:511) announces a reset of the title state. It keeps
  `lastDetectedTitle`, and it does not cancel an armed update timer.

Whenever they have a non-empty title, `updateSystem` and `syncTitleToTab` make it
the derived title and enforce it, even when it equals the previous derived title.
Only the `.conversation-title` observer compares against the last value it saw
(content.js:371).

## Model

| member | source | states |
|---|---|---|
| Text.TrimStart | content.js:256 | the result is a suffix of the input, everything dropped is white space, and it does not start with white space |
| Text.TrimEnd | content.js:256 | the result is a prefix of the input, everything dropped is white space, and it does not end with white space |
| Text.Trim | content.js:256 | `trim()` leaves no white space at either end and never lengthens the text |
| Text.TrimIsMiddle | content.js:256 | what `trim()` keeps is the piece of the text between a leading and a trailing run of white space |
| Text.TrimKeepsText | content.js:256 | trimming removes only white space: the non-space characters are kept in order |
| Text.TrimEmptyIff | content.js:267 | a trimmed text is empty exactly when the text is all white space |
| Text.CollapseStart | content.js:256 | `replace(/\s+/g, ' ')` yields empty exactly for empty input, and starts with white space exactly when the input does |
| Text.CollapseEnd | content.js:256 | `replace(/\s+/g, ' ')` on non-empty input ends with white space exactly when the input does |
| Text.CollapseSingleSpaced | content.js:256 | after collapsing, every white-space character is a single `' '` not followed by other white space |
| Text.CollapseFixpoint | content.js:256 | collapsing leaves already single-spaced text unchanged |
| Text.CollapseKeepsText | content.js:256 | collapsing removes only white space: the non-space characters are kept in order |
| Text.NormalizeSpec | content.js:256 | extracted text has no white space at either end, only single spaces inside, and the same non-space characters as the input |
| Text.CollapseAppend | content.js:256 | `replace(/\s+/g, ' ')` works piecewise across a cut just after a non-space character: no run straddles the cut |
| Text.CollapseRun | content.js:256 | a white-space run after a non-space character becomes exactly one `' '`, neither kept nor dropped |
| Text.NormalizeRun | content.js:256 | two normalised pieces separated by any non-empty white-space run normalise to the pieces joined by one space |
| Text.NormalizeFixpoint | content.js:256 | normalised text is a fixed point of the normalisation |
| Text.NormalizeIdempotent | content.js:256 | normalising twice gives the same text as normalising once |
| Text.NormalizedHasNoNewline | content.js:256 | normalised text contains no line break |
| Text.FirstLine | content.js:467 | `split('\n')[0]` is the prefix of the text before its first line break, and contains none |
| Text.NormalizedFirstLine | content.js:467 | the first line of an extracted message is the whole message |
| Text.Prefix | content.js:431 | `substring(0, n)` is a prefix of the text of length `min(n, length)` |
| Text.Truncate | content.js:344-346 | a text longer than `n` becomes its first `n` characters plus `"..."`; a text of at most `n` is unchanged; the result has at most `n + 3` characters |
| Text.TruncateIdempotent | content.js:476-478 | truncating an already truncated title changes nothing, so there is never a double ellipsis |
| Text.TruncateWithinCap | content.js:468-478 | a title truncated to 40 characters has at most 43, so the 60-character cap leaves it as it is |
| Text.SplitFirstLine | content.js:467 | the first piece of `split('\n')` is the text up to the first line break |
| Text.SplitJoin | content.js:431 | splitting a `join` of separator-free parts gives the parts back |
| Text.ContainsSelf | content.js:291-292 | every string includes itself, so the `=== t` disjunct is subsumed by `includes` |
| Titles.GenericChecksAgree | content.js:291-292 | the enforce-side placeholder test (`includes` or equality) and the observer-side test (`includes`, content.js:321) agree on every title |
| Titles.GenericTitleIsGeneric | content.js:34-41 | each configured generic title is recognised as a placeholder |
| Titles.LocalizedVariantIsGeneric | content.js:289-291 | a localised title such as "Gemini - 我的內容" is recognised as a placeholder |
| Titles.ReadConversationTitle | content.js:263-270 | the conversation title is present exactly when the element exists and its text is not all white space; it is then the trimmed, non-empty text |
| Titles.DeriveTitle | content.js:456-478 | a host conversation title becomes the tab title truncated to 60; without one, the first line of the first message truncated to 40; nothing when both are empty; a derived title is never empty and has at most 63 characters |
| Extraction.VisibleMatches | content.js:239-241 | an element is kept exactly when its `offsetParent` is not null and its text is non-blank |
| Extraction.VisibleMatchesFirst | content.js:239-241 | the first element kept is the first candidate in document order |
| Extraction.VisibleMatchesAppend | content.js:239-241 | `filter` keeps document order: filtering a concatenation is the concatenation of the filtered parts |
| Extraction.FirstVisibleNone | content.js:235-245 | the resolver yields nothing exactly when no selector has a visible match |
| Extraction.FirstVisibleSome | content.js:235-245 | when the resolver yields matches, they are the non-empty filtered matches of some selector, every earlier selector having none, each element visible with non-blank text |
| Extraction.FindUserQueries | content.js:235-245 | the loop returns the first non-empty filtered match set in selector order, or nothing exactly when every selector's set is empty |
| Extraction.ExtractText | content.js:247-257 | an extracted text is the normalised text of the element once the noise is removed: no outer white space, single spaces inside, every non-space character kept; each inner run becomes one space by `Text.NormalizeRun` |
| Extraction.ExtractTexts | content.js:425-428 | the extracted texts follow the matched elements one for one |
| Extraction.ExtractIdempotent | content.js:247-257 | extraction is idempotent: normalising an extracted text again changes nothing |
| Extraction.FallbackIsFirstMessage | content.js:461-470 | without a host conversation title, the tab title is the whole first message truncated to 40, or nothing if that message is empty |
| Extraction.Prefixes | content.js:431 | each signature piece is `substring(0, 10)` of its message: a prefix of length min(10, length) |
| Extraction.SignatureDetectsChange | content.js:431-434 | two message lists get the same signature exactly when their 10-character prefixes agree, when no prefix holds the separator |
| Extraction.SignatureCollision | content.js:431-432 | with the separator inside a message the signature collides: `["a\|b"]` and `["a", "b"]` differ yet give the same signature, so the sidebar is not rebuilt |
| Extraction.TocEntries | content.js:436-442 | each sidebar row is numbered from 1, keeps the full text for its tooltip, and shows the text truncated to 60: unchanged up to 60 characters, otherwise its first 60 followed by `"..."` |
| Reconciler.Initial | content.js:52-58 | at start the derived title is empty, the guard is down and no conversation title has been seen |
| Reconciler.HostWrite | content.js:317-321 | a host write changes the tab title and nothing else |
| Reconciler.Enforce | content.js:280-306 | an empty target, or a title already equal to it, changes nothing; otherwise the only possible change is writing the target with the guard raised, which happens exactly when the title is a placeholder or the target is the derived title; derived and last-detected titles are never touched |
| Reconciler.GuardCleared | content.js:304 | the tick lowers the guard and changes nothing else |
| Reconciler.TitleMutated | content.js:313-326 | with the guard up nothing changes; a placeholder title is replaced by a non-empty derived title; a non-placeholder title is left alone |
| Reconciler.Sync | content.js:340-355 | a non-empty title is capped at 60 characters plus ellipsis, becomes the derived title and ends up in the tab |
| Reconciler.UrlChanged | content.js:510-516 | navigation empties the derived title and leaves the tab title, the guard and the last detected title as they were |
| Reconciler.Navigated | content.js:493-508 | `pushState` and `popstate` reset the derived title; `replaceState` changes nothing |
| Reconciler.ListenerStarted | content.js:385-397 | once the title element exists, its trimmed text is recorded as the last detected title |
| Reconciler.TitleObserved | content.js:363-382 | the state changes exactly when the trimmed title is non-empty and differs from the last detected one, and then records it and arms the sync with it; the tab title is untouched |
| Reconciler.SyncFired | content.js:378-380 | the firing sync disarms itself and puts its title, capped, into the derived title and the tab; the guard goes up exactly when the tab is written; the update timer and signature are untouched |
| Reconciler.BodyMutated | content.js:530-543 | a relevant body mutation arms the update and nothing else changes |
| Reconciler.Updated | content.js:414-486 | without the sidebar or with no match nothing changes; otherwise the signature is stored and a derived title becomes both the derived and the tab title; the guard goes up exactly when the tab is written |
| Reconciler.UpdateFired | content.js:540-541 | an armed update timer disarms and runs the update; an unarmed one does nothing |
| Reconciler.EnforceIdempotent | content.js:285-286 | enforcing the same title twice writes at most once |
| Reconciler.EnforceEchoIgnored | content.js:299-304 | after an enforced write the guard is up, and the echo callback changes nothing |
| Reconciler.PinnedIsStable | content.js:318-324 | once the tab shows the derived title, the observer changes nothing even with the guard down |
| Reconciler.RecoveryQuiesces | content.js:300-324 | after a recovery write and the guard tick, a further callback writes nothing, so there is no write loop |
| Reconciler.GenericResetRecovered | content.js:318-324 | with the guard down, whichever configured placeholder the host writes, the observer restores the non-empty derived title |
| Reconciler.GuardedResetDropped | content.js:300-315 | a placeholder written while the guard is up stays on the tab; the next update that derives a title replaces it and is itself left alone by the observer |
| Reconciler.NonGenericWriteKept | content.js:321 | a non-placeholder host write is left alone by the observer |
| Reconciler.NavigationThenSync | content.js:349-352 | after a push or back/forward navigation, syncing a title pins the tab to it whatever the tab showed |
| Reconciler.ObservedTitleReachesTab | content.js:371-380 | a newly seen conversation title reaches the tab, capped, when the sync timer fires |
| Reconciler.LatestObservedTitleWins | content.js:375-380 | of two titles seen before the sync fires, only the later one reaches the tab |
| Reconciler.UpdatePinsTitle | content.js:474-485 | an update that derives a title leaves the tab showing it, and the echo of that write is ignored |
| Reconciler.UpdateAdoptsHostTitle | content.js:456-485 | an update that reads a conversation title of at most 60 characters makes it both the derived title and the tab title |
| Reconciler.TripPlanningScenario | content.js:313-326 | from "My content", an update pins "Trip planning to Kyoto"; after a host reset to "My content", the observer restores it |
| Sentinel.TitleSentinel.constructor | content.js:52-58 | the object starts in the initial state |
| Sentinel.TitleSentinel.HostSetTitle | content.js:317-321 | the host's write, as `HostWrite` |
| Sentinel.TitleSentinel.EnforceTitle | content.js:280-306 | performs `Enforce` in place and never touches the derived or last-detected title |
| Sentinel.TitleSentinel.ClearGuardTick | content.js:304 | performs `GuardCleared` in place |
| Sentinel.TitleSentinel.OnHostTitleMutated | content.js:313-326 | performs `TitleMutated` in place |
| Sentinel.TitleSentinel.SyncTitleToTab | content.js:340-355 | performs `Sync` in place |
| Sentinel.TitleSentinel.OnUrlChange | content.js:510-516 | performs `UrlChanged` in place |
| Sentinel.TitleSentinel.OnHistory | content.js:493-508 | performs `Navigated` in place |
| Sentinel.TitleSentinel.StartTitleListener | content.js:385-404 | performs `ListenerStarted` in place |
| Sentinel.TitleSentinel.OnConversationTitleObserved | content.js:363-382 | performs `TitleObserved` in place |
| Sentinel.TitleSentinel.FirePendingSync | content.js:378-380 | performs `SyncFired` in place |
| Sentinel.TitleSentinel.OnBodyMutated | content.js:530-543 | performs `BodyMutated` in place |
| Sentinel.TitleSentinel.UpdateSystem | content.js:414-486 | performs `Updated` on the resolver's result, and returns the sidebar rows exactly when the signature is new |
| Sentinel.TitleSentinel.FireScheduledUpdate | content.js:540-541 | performs `UpdateFired` in place; returns no rows when no update was armed, otherwise the sidebar rows exactly when the update finds a new signature |

## Left out

- CSS injection, sidebar construction and rendering, click handlers, `scrollIntoView` and the highlight animation (content.js:63-230, 436-452). These are presentation. `UpdateSystem` only returns the rows it would render.
- The node cloning and noise removal of `extractText` (content.js:249-252) are DOM operations. The element's text after that removal is an input (`Element.strippedText`).
- Real `MutationObserver` and `setTimeout` wiring: the delays (`debounceMs` 500, `titleSyncDebounceMs` 2000, the 1000 ms settle delay after navigation, the 1500 ms first run) and the `startObserving` retry loop (content.js:385-407). Timers are explicit methods that fire them. The update that `onUrlChange` schedules is a later call of `UpdateSystem`.
- The layout test of `findUserQueries` is reduced to one boolean per element, `offsetParent !== null` (content.js:240). Why it is null (no layout box, fixed positioning, `<body>`) is not modelled.
- The relevance pre-filter of the body observer (content.js:532-537) is a DOM test. It is a boolean input to `OnBodyMutated`.
- The monkey-patching of `history.pushState` and `history.replaceState` (content.js:494-505) is a foreign API. Only its effect is modelled: push and popstate call `OnUrlChange`, and replace does not.
- `console.log` output.
- Several `setTimeout(…, 0)` guard timers armed by successive writes are one `ClearGuardTick` each, fired in any order. A later timer can find the guard raised again by an enforce that ran in between and lower it early. This is harmless: the `<title>` observer callback for that write runs as a microtask, before any timer.
- Enforce, TitleMutated: `document.title` is a plain field that reads back exactly what was written. The browser's getter strips and collapses ASCII white space (content.js:283, 319), while conversation titles are only trimmed (content.js:267, 368). A derived title with a double space, tab or line break inside therefore never equals the title read back at content.js:286, and every update or sync rewrites it. `EnforceIdempotent` and `PinnedIsStable` hold in the source only for titles without such runs.
- String lengths count characters, not UTF-16 code units. Code points outside the Basic Multilingual Plane therefore count once rather than twice.
- The model cannot tell a host reset to a placeholder from a rename that the user makes in the host's own UI. The code does not distinguish them either: `Enforce` re-asserts the derived title in both cases.

=== FILE: config.dfy ===
/** The script's static configuration (content.js:30-49) and its fixed lengths. */
module Config {

  /**
   * Titles the host shows before or after it fails to compute a real one;
   * a tab title that includes any of them counts as a placeholder.
   */
  const GenericTitles: seq<string> :=
    ["Gemini", "My content", "我的內容", "Loading...", "New chat", "新對話"]

  /** Selector strategies for the user's messages, most reliable first. */
  const Selectors: seq<string> := [
    "[data-message-author-role=\"user\"]",
    "user-query",
    ".user-query-container",
    "h2[data-test-id=\"user-query\"]"
  ]

  /** Longest derived tab title before the ellipsis is appended. */
  const MaxTitleLength: nat := 60

  /** Longest title taken from the first message before the ellipsis is appended. */
  const FallbackTitleLength: nat := 40

  /** Longest message text shown in the sidebar before the ellipsis is appended. */
  const DisplayLength: nat := 60

  /** Characters of each message that enter the render-skip signature. */
  const SignaturePrefixLength: nat := 10

  /** Separator between the prefixes in the render-skip signature. */
  const SignatureSeparator: char := '|'
}

=== FILE: extraction.dfy ===
/**
 * Finding the user's messages on the page and turning them into text:
 * the selector resolver `findUserQueries`, the text part of `extractText`,
 * the render-skip signature and the sidebar entries.
 */
module Extraction {
  import opened Wrappers
  import opened Text
  import opened Config
  import opened Titles

  /**
   * One element matched by a selector: its live `innerText`, the `innerText`
   * of its copy once icons, timestamps and buttons are removed, and whether
   * its `offsetParent` is not null (it is laid out and not fixed-positioned).
   */
  datatype Element = Element(innerText: string, strippedText: string, rendered: bool)

  /** The filter of `findUserQueries`: visible, with some non-blank text. */
  predicate IsCandidate(e: Element) {
    e.innerText != "" && |Trim(e.innerText)| > 0 && e.rendered
  }

  /** The matches of one selector that pass the filter, in document order. */
  function VisibleMatches(elements: seq<Element>): (r: seq<Element>)
    ensures forall e :: e in r <==> e in elements && IsCandidate(e)
    ensures |r| <= |elements|
  {
    if elements == [] then []
    else (if IsCandidate(elements[0]) then [elements[0]] else []) + VisibleMatches(elements[1..])
  }

  /** `elements[k]` is the first candidate, and it heads the filtered list. */
  predicate FirstMatchAt(elements: seq<Element>, k: nat) {
    && k < |elements| && IsCandidate(elements[k])
    && VisibleMatches(elements) != [] && VisibleMatches(elements)[0] == elements[k]
    && forall j :: 0 <= j < k ==> !IsCandidate(elements[j])
  }

  /** The first match kept is the first candidate in document order. */
  lemma {:induction false} VisibleMatchesFirst(elements: seq<Element>)
    requires VisibleMatches(elements) != []
    ensures exists k :: FirstMatchAt(elements, k)
  {
    if IsCandidate(elements[0]) {
      assert FirstMatchAt(elements, 0);
    } else {
      VisibleMatchesFirst(elements[1..]);
      var k :| FirstMatchAt(elements[1..], k);
      FirstMatchShift(elements, k);
    }
  }

  /** Past a non-candidate head, the first match moves one place right. */
  lemma FirstMatchShift(elements: seq<Element>, k: nat)
    requires elements != [] && !IsCandidate(elements[0])
    requires FirstMatchAt(elements[1..], k)
    ensures FirstMatchAt(elements, k + 1)
  {
    VisibleMatchesSkip(elements);
    NoCandidateBeforeShift(elements, k);
    assert elements[k + 1] == elements[1..][k];
  }

  /** A non-candidate head is dropped by the filter. */
  lemma VisibleMatchesSkip(elements: seq<Element>)
    requires elements != [] && !IsCandidate(elements[0])
    ensures VisibleMatches(elements) == VisibleMatches(elements[1..])
  {
  }

  /** No candidate among the first `k + 1` elements, given none in the tail's first `k`. */
  lemma NoCandidateBeforeShift(elements: seq<Element>, k: nat)
    requires k < |elements| - 1 && !IsCandidate(elements[0])
    requires forall j :: 0 <= j < k ==> !IsCandidate(elements[1..][j])
    ensures forall j :: 0 <= j < k + 1 ==> !IsCandidate(elements[j])
  {
    forall j | 0 <= j < k + 1
      ensures !IsCandidate(elements[j])
    {
      if j > 0 {
        assert elements[j] == elements[1..][j - 1];
      }
    }
  }

  /** Filtering keeps document order: it works piecewise on consecutive runs of elements. */
  lemma {:induction false} VisibleMatchesAppend(a: seq<Element>, b: seq<Element>)
    ensures VisibleMatches(a + b) == VisibleMatches(a) + VisibleMatches(b)
    decreases |a|
  {
    if a == [] {
      assert a + b == b;
    } else {
      assert (a + b)[0] == a[0];
      assert (a + b)[1..] == a[1..] + b;
      VisibleMatchesAppend(a[1..], b);
    }
  }

  /**
   * Reference definition of the resolver: the filtered matches of the first
   * selector that has any, or nothing (`undefined`) when none has.
   */
  function FirstVisible(query: string -> seq<Element>, selectors: seq<string>): Option<seq<Element>>
  {
    if selectors == [] then None
    else
      var valid := VisibleMatches(query(selectors[0]));
      if valid != [] then Some(valid) else FirstVisible(query, selectors[1..])
  }

  /** The resolver returns nothing exactly when no selector has a visible match. */
  lemma {:induction false} FirstVisibleNone(query: string -> seq<Element>, selectors: seq<string>)
    ensures FirstVisible(query, selectors).None? <==>
      forall j :: 0 <= j < |selectors| ==> VisibleMatches(query(selectors[j])) == []
  {
    if selectors != [] {
      FirstVisibleNone(query, selectors[1..]);
      assert forall j :: 1 <= j < |selectors| ==> selectors[j] == selectors[1..][j - 1];
    }
  }

  /**
   * When the resolver returns matches, they are the visible matches of some
   * selector, none of the selectors before it has any, and each is a
   * candidate.
   */
  lemma {:induction false} FirstVisibleSome(query: string -> seq<Element>, selectors: seq<string>)
    requires FirstVisible(query, selectors).Some?
    ensures var found := FirstVisible(query, selectors).value;
      && found != []
      && (forall e :: e in found ==> IsCandidate(e))
      && exists k :: 0 <= k < |selectors| && found == VisibleMatches(query(selectors[k]))
           && forall j :: 0 <= j < k ==> VisibleMatches(query(selectors[j])) == []
  {
    var found := FirstVisible(query, selectors).value;
    if VisibleMatches(query(selectors[0])) != [] {
      assert found == VisibleMatches(query(selectors[0]));
    } else {
      FirstVisibleSome(query, selectors[1..]);
      var k :| 0 <= k < |selectors[1..]| && found == VisibleMatches(query(selectors[1..][k]))
        && forall j :: 0 <= j < k ==> VisibleMatches(query(selectors[1..][j])) == [];
      assert found == VisibleMatches(query(selectors[k + 1]));
      NoneBeforeShift(query, selectors, k);
    }
  }

  /** Selectors without matches before position `k` of the tail, and the head without any. */
  lemma NoneBeforeShift(query: string -> seq<Element>, selectors: seq<string>, k: nat)
    requires k < |selectors| - 1 && VisibleMatches(query(selectors[0])) == []
    requires forall j :: 0 <= j < k ==> VisibleMatches(query(selectors[1..][j])) == []
    ensures forall j :: 0 <= j < k + 1 ==> VisibleMatches(query(selectors[j])) == []
  {
    forall j | 0 <= j < k + 1
      ensures VisibleMatches(query(selectors[j])) == []
    {
      if j > 0 {
        assert selectors[j] == selectors[1..][j - 1];
      }
    }
  }

  /**
   * `findUserQueries`: tries each configured selector in order and returns
   * the visible matches of the first one that has any, or nothing.
   */
  method FindUserQueries(query: string -> seq<Element>) returns (r: Option<seq<Element>>)
    ensures r == FirstVisible(query, Selectors)
    ensures r.None? <==>
      forall j :: 0 <= j < |Selectors| ==> VisibleMatches(query(Selectors[j])) == []
    ensures r.Some? ==> r.value != [] && forall e :: e in r.value ==> IsCandidate(e)
  {
    FirstVisibleNone(query, Selectors);
    var i := 0;
    while i < |Selectors|
      invariant 0 <= i <= |Selectors|
      invariant FirstVisible(query, Selectors) == FirstVisible(query, Selectors[i..])
    {
      var valid := VisibleMatches(query(Selectors[i]));
      if |valid| > 0 {
        return Some(valid);
      }
      assert Selectors[i..][1..] == Selectors[i + 1..];
      i := i + 1;
    }
    return None;
  }

  /** The text `extractText` reads from a matched element, normalised. */
  function ExtractText(e: Element): (r: string)
    ensures IsNormalized(r)
    ensures NonSpace(r) == NonSpace(e.strippedText)
  {
    NormalizeSpec(e.strippedText);
    Normalize(e.strippedText)
  }

  /** The extracted text of every matched element, in order. */
  function ExtractTexts(found: seq<Element>): (r: seq<string>)
    ensures |r| == |found|
    ensures forall i :: 0 <= i < |found| ==> r[i] == ExtractText(found[i])
  {
    seq(|found|, i requires 0 <= i < |found| => ExtractText(found[i]))
  }

  /**
   * Extracting is idempotent: normalising an already extracted text again
   * gives the same text.
   */
  lemma ExtractIdempotent(e: Element)
    ensures Normalize(ExtractText(e)) == ExtractText(e)
  {
    NormalizeIdempotent(e.strippedText);
  }

  /**
   * When the host shows no conversation title, the fallback tab title is the
   * whole first message (it has no line break), cut to 40 characters.
   */
  lemma FallbackIsFirstMessage(conversationTitle: Option<string>, found: seq<Element>)
    requires conversationTitle.GetOr("") == ""
    requires found != []
    ensures var first := ExtractText(found[0]);
      DeriveTitle(conversationTitle, ExtractTexts(found)) ==
        if first == "" then None else Some(Truncate(first, FallbackTitleLength))
  {
    NormalizedFirstLine(found[0].strippedText);
  }

  /** The first ten characters of every text. */
  function Prefixes(texts: seq<string>): (r: seq<string>)
    ensures |r| == |texts|
    ensures forall i :: 0 <= i < |texts| ==> r[i] == Prefix(texts[i], SignaturePrefixLength)
    ensures forall i :: 0 <= i < |texts| ==> r[i] <= texts[i] && |r[i]| <= SignaturePrefixLength
    ensures forall i :: 0 <= i < |texts| && |texts[i]| >= SignaturePrefixLength ==>
      |r[i]| == SignaturePrefixLength
  {
    seq(|texts|, i requires 0 <= i < |texts| => Prefix(texts[i], SignaturePrefixLength))
  }

  /** `items.map(i => i.text.substring(0, 10)).join('|')`. */
  function Signature(texts: seq<string>): string {
    Join(Prefixes(texts), SignatureSeparator)
  }

  /**
   * The signature tells two message lists apart exactly when their ten-
   * character prefixes differ, provided no prefix holds the separator.
   */
  lemma SignatureDetectsChange(a: seq<string>, b: seq<string>)
    requires a != [] && b != []
    requires forall i :: 0 <= i < |a| ==> SignatureSeparator !in Prefixes(a)[i]
    requires forall i :: 0 <= i < |b| ==> SignatureSeparator !in Prefixes(b)[i]
    ensures Signature(a) == Signature(b) <==> Prefixes(a) == Prefixes(b)
  {
    SplitJoin(Prefixes(a), SignatureSeparator);
    SplitJoin(Prefixes(b), SignatureSeparator);
  }

  /**
   * The signature cannot tell a message holding the separator from two
   * messages: `["a|b"]` and `["a", "b"]` give the same signature, so the
   * sidebar is not rebuilt although the messages differ.
   */
  lemma SignatureCollision(a: char, b: char)
    ensures Signature([[a, SignatureSeparator, b]]) == Signature([[a], [b]])
    ensures Prefixes([[a, SignatureSeparator, b]]) != Prefixes([[a], [b]])
  {
    assert Prefixes([[a, SignatureSeparator, b]]) == [[a, SignatureSeparator, b]];
    assert Prefixes([[a], [b]]) == [[a], [b]];
    assert Join([[a], [b]], SignatureSeparator) == [a] + [SignatureSeparator] + Join([[b]], SignatureSeparator);
  }

  /** One sidebar row: its 1-based number, the shown text and the tooltip text. */
  datatype TocEntry = TocEntry(number: nat, displayText: string, fullText: string)

  /** The sidebar rows for the extracted texts. */
  function TocEntries(texts: seq<string>): (r: seq<TocEntry>)
    ensures |r| == |texts|
    ensures forall i :: 0 <= i < |texts| ==>
      && r[i].number == i + 1
      && r[i].fullText == texts[i]
      && r[i].displayText == Truncate(texts[i], DisplayLength)
      && |r[i].displayText| <= DisplayLength + 3
      && (|texts[i]| <= DisplayLength ==> r[i].displayText == texts[i])
      && Prefix(texts[i], DisplayLength) <= r[i].displayText
      && (|texts[i]| > DisplayLength ==> r[i].displayText[DisplayLength..] == "...")
  {
    seq(|texts|, i requires 0 <= i < |texts| =>
      TocEntry(i + 1, Truncate(texts[i], DisplayLength), texts[i]))
  }
}

=== FILE: reconciler.dfy ===
/**
 * The tab-title reconciler as a state machine over plain values.
 *
 * `State` holds the script's module-level `state` object together with the
 * two pieces of page state it reads and writes: `document.title` and the
 * signature stored on the sidebar. Every handler of the script, and every
 * timer it arms, is one transition function here; the class
 * `Sentinel.TitleSentinel` performs the same steps in place.
 */
module Reconciler {
  import opened Wrappers
  import opened Text
  import opened Config
  import opened Titles
  import opened Extraction

  datatype State = State(
    docTitle: string,                 // document.title, shared with the host page
    derivedTitle: string,             // state.currentDerivedTitle
    isManualUpdate: bool,             // state.isManualUpdate, the re-entrancy guard
    lastDetectedTitle: Option<string>,// state.lastDetectedTitle (null at start)
    pendingSync: Option<string>,      // the title the armed titleSyncTimer will sync
    updatePending: bool,              // navigationTimer is armed
    tocSignature: Option<string>      // tocContent.dataset.signature
  )

  /** The state when the script starts on a page whose title is `hostTitle`. */
  function Initial(hostTitle: string): (r: State)
    ensures r.docTitle == hostTitle && r.derivedTitle == "" && !r.isManualUpdate
    ensures r.lastDetectedTitle == None && r.pendingSync == None
    ensures Inv(r)
  {
    State(hostTitle, "", false, None, None, false, None)
  }

  /**
   * What every step keeps, proved as a preserved invariant of the model
   * rather than relied on by its contracts: the derived title fits in 60
   * characters plus the ellipsis (`MaxTitleLength` and `Truncate`), and an
   * armed title sync carries a non-empty title. The step functions are
   * total on every `State`, so `SyncFired` still states what an armed empty
   * title would do, a case no state reachable from `Initial` has.
   */
  predicate Inv(s: State) {
    && |s.derivedTitle| <= MaxTitleLength + 3
    && (s.pendingSync.Some? ==> s.pendingSync.value != "")
  }

  /** The host page writes the tab title. */
  function HostWrite(s: State, title: string): (r: State)
    ensures r.docTitle == title
    ensures r.(docTitle := s.docTitle) == s
    ensures Inv(s) ==> Inv(r)
  {
    s.(docTitle := title)
  }

  /**
   * `enforceTitle(target)`: writes `target` into the tab title, raising the
   * guard first, when the target is non-empty, differs from the current
   * title, and either the current title is a placeholder or the target is
   * the derived title.
   */
  function Enforce(s: State, target: string): (r: State)
    ensures target == "" || s.docTitle == target ==> r == s
    ensures r == s || r == s.(docTitle := target, isManualUpdate := true)
    ensures r != s <==>
      target != "" && s.docTitle != target && (IsGeneric(s.docTitle) || s.derivedTitle == target)
    ensures target != "" && target == s.derivedTitle ==> r.docTitle == target
    ensures r.derivedTitle == s.derivedTitle && r.lastDetectedTitle == s.lastDetectedTitle
    ensures Inv(s) ==> Inv(r)
  {
    var current := s.docTitle;
    GenericChecksAgree(current);
    if target != "" && current != target
      && (IsGenericOrEqual(current) || (current != target && s.derivedTitle == target))
    then s.(isManualUpdate := true, docTitle := target)
    else s
  }

  /** The zero-delay timer armed by `enforceTitle` fires and lowers the guard. */
  function GuardCleared(s: State): (r: State)
    ensures !r.isManualUpdate
    ensures r.(isManualUpdate := s.isManualUpdate) == s
    ensures Inv(s) ==> Inv(r)
  {
    s.(isManualUpdate := false)
  }

  /**
   * The `<title>` observer callback: ignored while the guard is up;
   * otherwise a placeholder title is overwritten with the derived title.
   */
  function TitleMutated(s: State): (r: State)
    ensures s.isManualUpdate ==> r == s
    ensures s.derivedTitle == "" || !IsGeneric(s.docTitle) ==> r == s
    ensures !s.isManualUpdate && s.derivedTitle != "" && IsGeneric(s.docTitle) ==>
      r.docTitle == s.derivedTitle
    ensures r == s || r == s.(docTitle := s.derivedTitle, isManualUpdate := true)
    ensures Inv(s) ==> Inv(r)
  {
    if s.isManualUpdate then s
    else if s.derivedTitle != "" && IsGeneric(s.docTitle) then Enforce(s, s.derivedTitle)
    else s
  }

  /**
   * `syncTitleToTab(title)`: a non-empty title is capped, becomes the
   * derived title and is enforced.
   */
  function Sync(s: State, title: string): (r: State)
    ensures title == "" ==> r == s
    ensures title != "" ==>
      && r.derivedTitle == Truncate(title, MaxTitleLength)
      && r.docTitle == r.derivedTitle
      && (r.isManualUpdate <==> s.isManualUpdate || s.docTitle != r.derivedTitle)
    ensures r.lastDetectedTitle == s.lastDetectedTitle && r.pendingSync == s.pendingSync
    ensures r.updatePending == s.updatePending && r.tocSignature == s.tocSignature
    ensures Inv(s) ==> Inv(r)
  {
    if title == "" then s
    else
      var capped := Truncate(title, MaxTitleLength);
      Enforce(s.(derivedTitle := capped), capped)
  }

  /**
   * `onUrlChange`: forgets the derived title. The tab title, the guard and
   * the last detected conversation title stay as they were.
   */
  function UrlChanged(s: State): (r: State)
    ensures r.derivedTitle == ""
    ensures r.docTitle == s.docTitle && r.isManualUpdate == s.isManualUpdate
    ensures r.lastDetectedTitle == s.lastDetectedTitle && r.pendingSync == s.pendingSync
    ensures r.updatePending == s.updatePending && r.tocSignature == s.tocSignature
    ensures Inv(s) ==> Inv(r)
  {
    s.(derivedTitle := "")
  }

  /** The history entry points the script intercepts. */
  datatype HistoryEvent = PushState | ReplaceState | PopState

  /** `pushState` and `popstate` reset the derived title; `replaceState` does not. */
  function Navigated(s: State, event: HistoryEvent): (r: State)
    ensures event == ReplaceState ==> r == s
    ensures event != ReplaceState ==> r == UrlChanged(s)
    ensures Inv(s) ==> Inv(r)
  {
    match event
    case PushState => UrlChanged(s)
    case PopState => UrlChanged(s)
    case ReplaceState => s
  }

  /**
   * `startObserving` once the `.conversation-title` element exists: records
   * its trimmed text (possibly empty) as the last detected title.
   */
  function ListenerStarted(s: State, el: Option<TitleElement>): (r: State)
    ensures el.None? ==> r == s
    ensures el.Some? ==> r == s.(lastDetectedTitle := Some(Trim(ElementText(el.value))))
    ensures Inv(s) ==> Inv(r)
  {
    match el
    case None => s
    case Some(e) => s.(lastDetectedTitle := Some(Trim(ElementText(e))))
  }

  /**
   * The `.conversation-title` observer callback: a non-empty trimmed title
   * that differs from the last detected one is recorded and (re)arms the
   * title-sync timer with it, replacing any earlier pending title.
   */
  function TitleObserved(s: State, el: Option<TitleElement>): (r: State)
    ensures var seen := ReadConversationTitle(el);
      r != s <==> seen.Some? && seen != s.lastDetectedTitle
    ensures r != s ==> var seen := ReadConversationTitle(el);
      r == s.(lastDetectedTitle := seen, pendingSync := seen)
    ensures r.docTitle == s.docTitle && r.derivedTitle == s.derivedTitle
    ensures r.isManualUpdate == s.isManualUpdate
    ensures Inv(s) ==> Inv(r)
  {
    var seen := ReadConversationTitle(el);
    if seen.Some? && seen != s.lastDetectedTitle
    then s.(lastDetectedTitle := seen, pendingSync := seen)
    else s
  }

  /** The title-sync timer fires: its title is synced to the tab. */
  function SyncFired(s: State): (r: State)
    ensures s.pendingSync.None? ==> r == s
    ensures s.pendingSync == Some("") ==> r == s.(pendingSync := None)
    ensures s.pendingSync.Some? && s.pendingSync.value != "" ==>
      && r.pendingSync == None
      && r.derivedTitle == Truncate(s.pendingSync.value, MaxTitleLength)
      && r.docTitle == r.derivedTitle
    ensures r.isManualUpdate == (s.isManualUpdate || r.docTitle != s.docTitle)
    ensures r.lastDetectedTitle == s.lastDetectedTitle
    ensures r.updatePending == s.updatePending && r.tocSignature == s.tocSignature
    ensures Inv(s) ==> Inv(r)
  {
    match s.pendingSync
    case None => s
    case Some(title) => Sync(s.(pendingSync := None), title)
  }

  /** A body mutation: a relevant one (re)arms the debounced update. */
  function BodyMutated(s: State, relevant: bool): (r: State)
    ensures r.updatePending == (s.updatePending || relevant)
    ensures r.(updatePending := s.updatePending) == s
    ensures Inv(s) ==> Inv(r)
  {
    if relevant then s.(updatePending := true) else s
  }

  /**
   * `updateSystem` given the resolver's result: nothing happens when the
   * sidebar is missing or when the resolver found nothing (`queries.length`
   * then throws); otherwise the signature is stored and, when a title can be
   * derived, it becomes the derived title and is enforced.
   */
  function Updated(s: State, found: Option<seq<Element>>, uiReady: bool, titleEl: Option<TitleElement>): (r: State)
    ensures !uiReady || found.None? ==> r == s
    ensures uiReady && found.Some? ==>
      var texts := ExtractTexts(found.value);
      && r.tocSignature == Some(Signature(texts))
      && match DeriveTitle(ReadConversationTitle(titleEl), texts)
         case None => r.derivedTitle == s.derivedTitle && r.docTitle == s.docTitle
         case Some(t) => r.derivedTitle == t && r.docTitle == t
    ensures r.lastDetectedTitle == s.lastDetectedTitle && r.pendingSync == s.pendingSync
    ensures r.isManualUpdate == (s.isManualUpdate || r.docTitle != s.docTitle)
    ensures r.updatePending == s.updatePending
    ensures Inv(s) ==> Inv(r)
  {
    if !uiReady then s
    else match found
      case None => s
      case Some(queries) =>
        var texts := ExtractTexts(queries);
        var s1 := s.(tocSignature := Some(Signature(texts)));
        match DeriveTitle(ReadConversationTitle(titleEl), texts)
        case None => s1
        case Some(title) => Enforce(s1.(derivedTitle := title), title)
  }

  /** Whether `updateSystem` rebuilds the sidebar: the signature it computes is new. */
  function Rerenders(s: State, found: Option<seq<Element>>, uiReady: bool): bool {
    uiReady && found.Some? && s.tocSignature != Some(Signature(ExtractTexts(found.value)))
  }

  /** The debounced update timer fires. */
  function UpdateFired(s: State, found: Option<seq<Element>>, uiReady: bool, titleEl: Option<TitleElement>): (r: State)
    ensures !s.updatePending ==> r == s
    ensures s.updatePending ==> r == Updated(s.(updatePending := false), found, uiReady, titleEl)
    ensures Inv(s) ==> Inv(r)
  {
    if s.updatePending then Updated(s.(updatePending := false), found, uiReady, titleEl) else s
  }

  // ------------------------------------------------------------------
  // Properties of runs
  // ------------------------------------------------------------------

  /** Enforcing the same title twice writes at most once. */
  lemma EnforceIdempotent(s: State, target: string)
    ensures Enforce(Enforce(s, target), target) == Enforce(s, target)
  {
  }

  /**
   * Echo suppression: the observer callback that an enforced write triggers
   * finds the guard up and changes nothing, whatever the titles are.
   */
  lemma EnforceEchoIgnored(s: State, target: string)
    requires Enforce(s, target) != s
    ensures Enforce(s, target).isManualUpdate
    ensures TitleMutated(Enforce(s, target)) == Enforce(s, target)
  {
  }

  /**
   * No write loop: once the tab shows the derived title, the observer
   * callback changes nothing, even with the guard down.
   */
  lemma PinnedIsStable(s: State)
    requires s.docTitle == s.derivedTitle
    ensures TitleMutated(s) == s
  {
  }

  /**
   * A recovery write is followed by nothing: after the guard is lowered, a
   * further observer callback (with no host write in between) is a no-op.
   */
  lemma RecoveryQuiesces(s: State)
    requires !s.isManualUpdate
    ensures var after := GuardCleared(TitleMutated(s));
      TitleMutated(after) == after
  {
    if TitleMutated(s) != s {
      PinnedIsStable(GuardCleared(TitleMutated(s)));
    }
  }

  /**
   * Reset recovery: with the guard down, whichever configured placeholder the
   * host writes, the observer callback puts the derived title back. A reset
   * that lands while the guard is up is dropped (`GuardedResetDropped`).
   */
  lemma GenericResetRecovered(s: State, j: nat)
    requires j < |GenericTitles|
    requires !s.isManualUpdate && s.derivedTitle != ""
    ensures TitleMutated(HostWrite(s, GenericTitles[j])).docTitle == s.derivedTitle
  {
    GenericTitleIsGeneric(j);
  }

  /**
   * The race in reset recovery: a placeholder written while the guard of an
   * enforced write is still up is not undone by the observer callback; it
   * stays on the tab until the next update that derives a title, which pins
   * that title again.
   */
  lemma GuardedResetDropped(s: State, j: nat, found: seq<Element>, titleEl: Option<TitleElement>)
    requires j < |GenericTitles| && s.isManualUpdate
    requires DeriveTitle(ReadConversationTitle(titleEl), ExtractTexts(found)).Some?
    ensures var dropped := TitleMutated(HostWrite(s, GenericTitles[j]));
      && dropped.docTitle == GenericTitles[j]
      && var r := Updated(dropped, Some(found), true, titleEl);
         && r.docTitle == DeriveTitle(ReadConversationTitle(titleEl), ExtractTexts(found)).value
         && TitleMutated(r) == r
  {
  }

  /**
   * A host write of a non-placeholder title is left alone by the observer,
   * even when it differs from the derived title.
   */
  lemma NonGenericWriteKept(s: State, title: string)
    requires !IsGeneric(title)
    ensures TitleMutated(HostWrite(s, title)) == HostWrite(s, title)
  {
  }

  /**
   * Navigation reset: after a push or back/forward navigation, syncing any
   * non-empty title pins the tab to it, whatever the tab showed before.
   */
  lemma NavigationThenSync(s: State, event: HistoryEvent, title: string)
    requires event != ReplaceState && title != ""
    ensures var r := Sync(Navigated(s, event), title);
      r.docTitle == Truncate(title, MaxTitleLength) && r.derivedTitle == r.docTitle
  {
  }

  /**
   * A new conversation title seen by the title listener reaches the tab when
   * the sync timer fires, capped at 60 characters.
   */
  lemma ObservedTitleReachesTab(s: State, el: Option<TitleElement>)
    requires ReadConversationTitle(el).Some? && ReadConversationTitle(el) != s.lastDetectedTitle
    ensures var r := SyncFired(TitleObserved(s, el));
      && r.docTitle == Truncate(ReadConversationTitle(el).value, MaxTitleLength)
      && r.derivedTitle == r.docTitle
      && r.pendingSync == None
  {
  }

  /**
   * Last write wins: when two different titles are seen before the sync
   * timer fires, only the later one reaches the tab.
   */
  lemma LatestObservedTitleWins(s: State, first: Option<TitleElement>, second: Option<TitleElement>)
    requires ReadConversationTitle(first).Some? && ReadConversationTitle(second).Some?
    requires ReadConversationTitle(second) != ReadConversationTitle(first)
    ensures var r := SyncFired(TitleObserved(TitleObserved(s, first), second));
      r.docTitle == Truncate(ReadConversationTitle(second).value, MaxTitleLength)
  {
  }

  /**
   * An update that derives a title leaves the tab showing it, and the echo of
   * that write is ignored.
   */
  lemma UpdatePinsTitle(s: State, found: Option<seq<Element>>, uiReady: bool, titleEl: Option<TitleElement>)
    requires uiReady && found.Some?
    requires DeriveTitle(ReadConversationTitle(titleEl), ExtractTexts(found.value)).Some?
    ensures var r := Updated(s, found, uiReady, titleEl);
      && r.docTitle == r.derivedTitle
      && TitleMutated(r) == r
  {
  }

  /**
   * The end-to-end scenario: the tab shows the placeholder "My content"
   * (`GenericTitles[1]`); an update that sees
   * the conversation title "Trip planning to Kyoto" pins the tab to it; the
   * host resets the tab to "My content" again, and once the guard is down
   * the observer callback restores the conversation title.
   */
  lemma TripPlanningScenario(s: State, found: seq<Element>)
    requires s.docTitle == GenericTitles[1] && found != []
    ensures var title := Some(TitleElement("Trip planning to Kyoto", ""));
      var s1 := Updated(s, Some(found), true, title);
      var s2 := TitleMutated(HostWrite(GuardCleared(s1), GenericTitles[1]));
      s1.docTitle == "Trip planning to Kyoto" && s2.docTitle == "Trip planning to Kyoto"
  {
    var text := "Trip planning to Kyoto";
    TripTitleIsRead(text);
    UpdateAdoptsHostTitle(s, found, Some(TitleElement(text, "")), text);
    var s1 := Updated(s, Some(found), true, Some(TitleElement(text, "")));
    GenericResetRecovered(GuardCleared(s1), 1);
  }

  /**
   * An update that reads a host conversation title of at most 60 characters
   * makes it both the derived title and the tab title.
   */
  lemma UpdateAdoptsHostTitle(s: State, found: seq<Element>, titleEl: Option<TitleElement>, text: string)
    requires ReadConversationTitle(titleEl) == Some(text) && |text| <= MaxTitleLength
    ensures var r := Updated(s, Some(found), true, titleEl);
      r.docTitle == text && r.derivedTitle == text
  {
    assert DeriveTitle(Some(text), ExtractTexts(found)) == Some(text);
  }

  /** The element text of the scenario has no surrounding white space and is read as is. */
  lemma TripTitleIsRead(text: string)
    requires text == "Trip planning to Kyoto"
    ensures ReadConversationTitle(Some(TitleElement(text, ""))) == Some(text)
  {
    assert !IsSpace(text[0]) && !IsSpace(text[|text| - 1]);
    assert TrimStart(text) == text;
    assert TrimEnd(text) == text;
  }
}

=== FILE: sentinel.dfy ===
/**
 * The script's handlers as they run: an object holding the module-level
 * `state` fields, `document.title` and the sidebar's stored signature, whose
 * methods update those fields in place. Each method is proved to make the
 * step the matching transition of `Reconciler` describes, so the
 * properties proved there hold of every run of these methods.
 */
module Sentinel {
  import opened Wrappers
  import opened Config
  import opened Titles
  import opened Extraction
  import opened Reconciler

  class TitleSentinel {
    var docTitle: string
    var derivedTitle: string
    var isManualUpdate: bool
    var lastDetectedTitle: Option<string>
    var pendingSync: Option<string>
    var updatePending: bool
    var tocSignature: Option<string>

    /** The abstract value of this object. */
    function Snap(): State
      reads this
    {
      State(docTitle, derivedTitle, isManualUpdate, lastDetectedTitle, pendingSync,
            updatePending, tocSignature)
    }

    predicate Valid()
      reads this
    {
      Inv(Snap())
    }

    /** The script starts on a page whose tab title is `hostTitle`. */
    constructor (hostTitle: string)
      ensures Valid()
      ensures Snap() == Initial(hostTitle)
    {
      docTitle := hostTitle;
      derivedTitle := "";
      isManualUpdate := false;
      lastDetectedTitle := None;
      pendingSync := None;
      updatePending := false;
      tocSignature := None;
    }

    /** The host page's own scripts write the tab title. */
    method HostSetTitle(title: string)
      requires Valid()
      modifies this
      ensures Valid()
      ensures Snap() == HostWrite(old(Snap()), title)
    {
      docTitle := title;
    }

    /** `enforceTitle(targetTitle)` (content.js:280-306). */
    method EnforceTitle(targetTitle: string)
      requires Valid()
      modifies this
      ensures Valid()
      ensures Snap() == Enforce(old(Snap()), targetTitle)
      ensures derivedTitle == old(derivedTitle) && lastDetectedTitle == old(lastDetectedTitle)
    {
      if targetTitle == "" {
        return;
      }
      var current := docTitle;
      if current == targetTitle {
        return;
      }
      var isGeneric := IsGenericOrEqual(current);
      if isGeneric || (current != targetTitle && derivedTitle == targetTitle) {
        isManualUpdate := true;
        docTitle := targetTitle;
      }
    }

    /** The zero-delay timer that `enforceTitle` arms to lower the guard. */
    method ClearGuardTick()
      requires Valid()
      modifies this
      ensures Valid()
      ensures Snap() == GuardCleared(old(Snap()))
    {
      isManualUpdate := false;
    }

    /** The `<title>` observer callback (content.js:313-326). */
    method OnHostTitleMutated()
      requires Valid()
      modifies this
      ensures Valid()
      ensures Snap() == TitleMutated(old(Snap()))
    {
      if isManualUpdate {
        return;
      }
      if derivedTitle != "" {
        var newTitle := docTitle;
        if IsGeneric(newTitle) {
          EnforceTitle(derivedTitle);
        }
      }
    }

    /** `syncTitleToTab(title)` (content.js:340-355). */
    method SyncTitleToTab(title: string)
      requires Valid()
      modifies this
      ensures Valid()
      ensures Snap() == Sync(old(Snap()), title)
    {
      if title == "" {
        return;
      }
      var capped := Text.Truncate(title, MaxTitleLength);
      derivedTitle := capped;
      EnforceTitle(capped);
    }

    /** `onUrlChange` (content.js:510-516), without the delayed update it schedules. */
    method OnUrlChange()
      requires Valid()
      modifies this
      ensures Valid()
      ensures Snap() == UrlChanged(old(Snap()))
    {
      derivedTitle := "";
    }

    /** The intercepted history entry points (content.js:493-508). */
    method OnHistory(event: HistoryEvent)
      requires Valid()
      modifies this
      ensures Valid()
      ensures Snap() == Navigated(old(Snap()), event)
    {
      match event
      case PushState => OnUrlChange();
      case PopState => OnUrlChange();
      case ReplaceState =>
    }

    /** `startObserving` finding (or not yet finding) the title element (content.js:385-404). */
    method StartTitleListener(el: Option<TitleElement>)
      requires Valid()
      modifies this
      ensures Valid()
      ensures Snap() == ListenerStarted(old(Snap()), el)
    {
      if el.Some? {
        var initialTitle := ElementText(el.value);
        lastDetectedTitle := Some(Text.Trim(initialTitle));
      }
    }

    /** The `.conversation-title` observer callback (content.js:363-382). */
    method OnConversationTitleObserved(el: Option<TitleElement>)
      requires Valid()
      modifies this
      ensures Valid()
      ensures Snap() == TitleObserved(old(Snap()), el)
    {
      if el.None? {
        return;
      }
      var currentTitle := ElementText(el.value);
      var trimmedTitle := Text.Trim(currentTitle);
      Text.TrimEmptyIff(currentTitle);
      if trimmedTitle != "" && Some(trimmedTitle) != lastDetectedTitle {
        lastDetectedTitle := Some(trimmedTitle);
        pendingSync := Some(trimmedTitle);
      }
    }

    /** The title-sync timer fires (content.js:378-380). */
    method FirePendingSync()
      requires Valid()
      modifies this
      ensures Valid()
      ensures Snap() == SyncFired(old(Snap()))
    {
      if pendingSync.Some? {
        var title := pendingSync.value;
        pendingSync := None;
        SyncTitleToTab(title);
      }
    }

    /** The body observer callback, given whether the mutation was relevant (content.js:530-543). */
    method OnBodyMutated(relevant: bool)
      requires Valid()
      modifies this
      ensures Valid()
      ensures Snap() == BodyMutated(old(Snap()), relevant)
    {
      if relevant {
        updatePending := true;
      }
    }

    /**
     * `updateSystem` (content.js:414-486). `query` stands for
     * `document.querySelectorAll`, `uiReady` for the sidebar container
     * existing, `titleEl` for the `.conversation-title` element. Returns the
     * sidebar rows when the sidebar is rebuilt.
     */
    method UpdateSystem(query: string -> seq<Element>, uiReady: bool, titleEl: Option<TitleElement>)
      returns (rendered: Option<seq<TocEntry>>)
      requires Valid()
      modifies this
      ensures Valid()
      ensures Snap() == Updated(old(Snap()), FirstVisible(query, Selectors), uiReady, titleEl)
      ensures rendered.Some? <==> Rerenders(old(Snap()), FirstVisible(query, Selectors), uiReady)
      ensures rendered.Some? ==>
        rendered.value == TocEntries(ExtractTexts(FirstVisible(query, Selectors).value))
    {
      var queries := FindUserQueries(query);
      rendered := None;
      if !uiReady {
        return;
      }
      if queries.None? {
        // `queries.length` on `undefined` throws: the rest of the update is skipped.
        return;
      }
      var items := ExtractTexts(queries.value);
      var signature := Signature(items);
      if tocSignature != Some(signature) {
        tocSignature := Some(signature);
        rendered := Some(TocEntries(items));
      }
      var conversationTitle := DeriveTitle(ReadConversationTitle(titleEl), items);
      if conversationTitle.Some? {
        derivedTitle := conversationTitle.value;
        EnforceTitle(conversationTitle.value);
      }
    }

    /** The debounced update timer fires (content.js:540-541). */
    method FireScheduledUpdate(query: string -> seq<Element>, uiReady: bool, titleEl: Option<TitleElement>)
      returns (rendered: Option<seq<TocEntry>>)
      requires Valid()
      modifies this
      ensures Valid()
      ensures Snap() == UpdateFired(old(Snap()), FirstVisible(query, Selectors), uiReady, titleEl)
      ensures !old(updatePending) ==> rendered == None
      ensures old(updatePending) ==>
        (rendered.Some? <==> Rerenders(old(Snap()), FirstVisible(query, Selectors), uiReady))
      ensures rendered.Some? ==>
        rendered.value == TocEntries(ExtractTexts(FirstVisible(query, Selectors).value))
    {
      rendered := None;
      if updatePending {
        updatePending := false;
        rendered := UpdateSystem(query, uiReady, titleEl);
      }
    }
  }
}

=== FILE: text.dfy ===
/**
 * String helpers of the navigator script, over `seq<char>`.
 * A JavaScript string length counts UTF-16 code units; here it is the
 * length of the character sequence.
 */
module Text {

  /**
   * The characters matched by the JavaScript class `\s` and removed by
   * `String.prototype.trim`: the white-space and line-terminator code
   * points of the Basic Multilingual Plane.
   */
  predicate IsSpace(c: char) {
    || c == ' ' || c == '\t' || c == '\n' || c == '\r'
    || c == '\U{000B}' || c == '\U{000C}' || c == '\U{00A0}' || c == '\U{1680}'
    || ('\U{2000}' <= c <= '\U{200A}')
    || c == '\U{2028}' || c == '\U{2029}' || c == '\U{202F}' || c == '\U{205F}'
    || c == '\U{3000}' || c == '\U{FEFF}'
  }

  /** Every character of `s` is white space. */
  predicate AllSpace(s: string) {
    forall k :: 0 <= k < |s| ==> IsSpace(s[k])
  }

  /** The characters of `s` that are not white space, in order. */
  function NonSpace(s: string): string {
    if s == [] then []
    else if IsSpace(s[0]) then NonSpace(s[1..])
    else [s[0]] + NonSpace(s[1..])
  }

  // ------------------------------------------------------------------
  // trim()
  // ------------------------------------------------------------------

  /** `s` without its leading white space. */
  function TrimStart(s: string): (r: string)
    ensures |r| <= |s| && r == s[|s| - |r|..]
    ensures AllSpace(s[..|s| - |r|])
    ensures r == [] || !IsSpace(r[0])
    ensures |s| > 0 && IsSpace(s[0]) ==> |r| < |s|
    decreases |s|
  {
    if |s| > 0 && IsSpace(s[0]) then
      var t := s[1..];
      var r := TrimStart(t);
      TrimStartStep(s, t, r);
      r
    else
      KeepWhole(s);
      s
  }

  /** Nothing dropped: `s` is its own suffix after an empty run. */
  lemma KeepWhole(s: string)
    ensures s == s[|s| - |s|..] && AllSpace(s[..|s| - |s|])
  {
  }

  /** One step of `TrimStart`: a leading space joins the dropped run. */
  lemma TrimStartStep(s: string, t: string, r: string)
    requires |s| > 0 && IsSpace(s[0]) && t == s[1..]
    requires |r| <= |t| && r == t[|t| - |r|..]
    requires AllSpace(t[..|t| - |r|])
    ensures |r| < |s| && r == s[|s| - |r|..]
    ensures AllSpace(s[..|s| - |r|])
  {
    var k := |s| - |r|;
    forall i | 0 <= i < k
      ensures IsSpace(s[..k][i])
    {
      if i > 0 {
        assert s[..k][i] == t[..k - 1][i - 1];
      }
    }
  }

  /** `s` without its trailing white space. */
  function TrimEnd(s: string): (r: string)
    ensures |r| <= |s| && r == s[..|r|]
    ensures AllSpace(s[|r|..])
    ensures r == [] || !IsSpace(r[|r| - 1])
    decreases |s|
  {
    if |s| > 0 && IsSpace(s[|s| - 1]) then
      var r := TrimEnd(s[..|s| - 1]);
      TrimEndStep(s, r);
      r
    else s
  }

  /** One step of `TrimEnd`: a trailing space joins the dropped run. */
  lemma TrimEndStep(s: string, r: string)
    requires |s| > 0 && IsSpace(s[|s| - 1])
    requires |r| <= |s| - 1 && r == s[..|s| - 1][..|r|]
    requires AllSpace(s[..|s| - 1][|r|..])
    ensures r == s[..|r|]
    ensures AllSpace(s[|r|..])
  {
    assert s[..|s| - 1][|r|..] + [s[|s| - 1]] == s[|r|..];
  }

  /** `s.trim()`: the piece of `s` between its leading and trailing white space. */
  function Trim(s: string): (r: string)
    ensures r == [] || (!IsSpace(r[0]) && !IsSpace(r[|r| - 1]))
    ensures |r| <= |s|
  {
    TrimEnd(TrimStart(s))
  }

  /**
   * What `trim()` keeps is the piece of `s` between a leading and a trailing
   * run of white space.
   */
  lemma TrimIsMiddle(s: string)
    ensures var r := Trim(s);
      exists i :: 0 <= i && i + |r| <= |s| && r == s[i..i + |r|]
                  && AllSpace(s[..i]) && AllSpace(s[i + |r|..])
  {
    TrimPiece(s, TrimStart(s), Trim(s));
  }

  /** The trimmed text sits in `s` at the end of the leading white space. */
  lemma TrimPiece(s: string, t: string, r: string)
    requires |t| <= |s| && t == s[|s| - |t|..] && AllSpace(s[..|s| - |t|])
    requires |r| <= |t| && r == t[..|r|] && AllSpace(t[|r|..])
    ensures var i := |s| - |t|;
      i + |r| <= |s| && r == s[i..i + |r|] && AllSpace(s[..i]) && AllSpace(s[i + |r|..])
  {
    var i := |s| - |t|;
    assert s[i + |r|..] == t[|r|..];
  }

  lemma AllSpaceNonSpace(s: string)
    requires AllSpace(s)
    ensures NonSpace(s) == []
  {
    if s != [] {
      AllSpaceNonSpace(s[1..]);
    }
  }

  lemma {:induction false} NonSpaceAppend(a: string, b: string)
    ensures NonSpace(a + b) == NonSpace(a) + NonSpace(b)
  {
    if a == [] {
      assert a + b == b;
    } else {
      assert (a + b)[1..] == a[1..] + b;
      NonSpaceAppend(a[1..], b);
    }
  }

  lemma {:induction false} TrimStartKeepsText(s: string)
    ensures NonSpace(TrimStart(s)) == NonSpace(s)
  {
    if s != [] && IsSpace(s[0]) {
      TrimStartKeepsText(s[1..]);
    }
  }

  lemma TrimEndKeepsText(t: string)
    ensures NonSpace(TrimEnd(t)) == NonSpace(t)
  {
    var u := TrimEnd(t);
    assert t == u + t[|u|..];
    NonSpaceAppend(u, t[|u|..]);
    AllSpaceNonSpace(t[|u|..]);
  }

  /** Trimming removes white space only. */
  lemma TrimKeepsText(s: string)
    ensures NonSpace(Trim(s)) == NonSpace(s)
  {
    TrimStartKeepsText(s);
    TrimEndKeepsText(TrimStart(s));
  }

  /** `s.trim()` is empty exactly when `s` is all white space. */
  lemma TrimEmptyIff(s: string)
    ensures Trim(s) == [] <==> AllSpace(s)
  {
    var t := TrimStart(s);
    if Trim(s) == [] {
      assert AllSpace(t[0..]);
      assert t == [];
      assert s[..|s|] == s;
    } else {
      var r := Trim(s);
      assert r[0] == s[|s| - |t|];
    }
  }

  // ------------------------------------------------------------------
  // replace(/\s+/g, ' ')
  // ------------------------------------------------------------------

  /** Every maximal run of white space in `s` replaced by one `' '`. */
  function CollapseSpaces(s: string): string
    decreases |s|
  {
    if s == [] then []
    else if IsSpace(s[0]) then " " + CollapseSpaces(TrimStart(s))
    else [s[0]] + CollapseSpaces(s[1..])
  }

  /** The only white space in `s` is single `' '` characters. */
  predicate SingleSpaced(s: string) {
    forall i :: 0 <= i < |s| && IsSpace(s[i]) ==>
      s[i] == ' ' && (i + 1 < |s| ==> !IsSpace(s[i + 1]))
  }

  /** Collapsing keeps emptiness, and white space at the start, as they were. */
  lemma {:induction false} CollapseStart(s: string)
    ensures CollapseSpaces(s) == [] <==> s == []
    ensures s != [] ==> (IsSpace(CollapseSpaces(s)[0]) <==> IsSpace(s[0]))
  {
    if s != [] && IsSpace(s[0]) {
      assert CollapseSpaces(s) == " " + CollapseSpaces(TrimStart(s));
    } else if s != [] {
      assert CollapseSpaces(s) == [s[0]] + CollapseSpaces(s[1..]);
    }
  }

  /** Collapsing keeps white space at the end as it was. */
  lemma {:induction false} CollapseEnd(s: string)
    requires s != []
    ensures var r := CollapseSpaces(s);
      r != [] && (IsSpace(r[|r| - 1]) <==> IsSpace(s[|s| - 1]))
    decreases |s|
  {
    CollapseStart(s);
    var r := CollapseSpaces(s);
    if IsSpace(s[0]) {
      var t := TrimStart(s);
      assert r == " " + CollapseSpaces(t);
      if t == [] {
        CollapseStart(t);
        assert AllSpace(s[..|s|]);
        assert s[..|s|] == s;
      } else {
        CollapseEnd(t);
        assert r[|r| - 1] == CollapseSpaces(t)[|CollapseSpaces(t)| - 1];
        assert t[|t| - 1] == s[|s| - 1];
      }
    } else {
      assert r == [s[0]] + CollapseSpaces(s[1..]);
      if s[1..] == [] {
        CollapseStart(s[1..]);
      } else {
        CollapseEnd(s[1..]);
        assert r[|r| - 1] == CollapseSpaces(s[1..])[|CollapseSpaces(s[1..])| - 1];
      }
    }
  }

  /** The result of collapsing is single-spaced. */
  lemma {:induction false} CollapseSingleSpaced(s: string)
    ensures SingleSpaced(CollapseSpaces(s))
    decreases |s|
  {
    if s == [] {
    } else if IsSpace(s[0]) {
      var t := TrimStart(s);
      CollapseSingleSpaced(t);
      CollapseStart(t);
      var c := CollapseSpaces(t);
      assert CollapseSpaces(s) == " " + c;
      SingleSpacedCons(' ', c);
    } else {
      CollapseSingleSpaced(s[1..]);
      SingleSpacedCons(s[0], CollapseSpaces(s[1..]));
    }
  }

  lemma SingleSpacedCons(c: char, s: string)
    requires SingleSpaced(s)
    requires IsSpace(c) ==> c == ' ' && (s == [] || !IsSpace(s[0]))
    ensures SingleSpaced([c] + s)
  {
    var r := [c] + s;
    forall i | 0 <= i < |r| && IsSpace(r[i])
      ensures r[i] == ' ' && (i + 1 < |r| ==> !IsSpace(r[i + 1]))
    {
      if i > 0 {
        assert r[i] == s[i - 1];
        if i + 1 < |r| {
          assert r[i + 1] == s[i];
        }
      }
    }
  }

  /** The tail of a single-spaced string is single-spaced; a leading space is a lone `' '`. */
  lemma SingleSpacedTail(s: string)
    requires s != [] && SingleSpaced(s)
    ensures SingleSpaced(s[1..])
    ensures IsSpace(s[0]) ==> s[0] == ' ' && (s[1..] == [] || !IsSpace(s[1..][0]))
  {
    forall i | 0 <= i < |s[1..]| && IsSpace(s[1..][i])
      ensures s[1..][i] == ' ' && (i + 1 < |s[1..]| ==> !IsSpace(s[1..][i + 1]))
    {
      assert s[1..][i] == s[i + 1];
    }
  }

  /** Collapsing leaves a single-spaced string as it is. */
  lemma {:induction false} CollapseFixpoint(s: string)
    requires SingleSpaced(s)
    ensures CollapseSpaces(s) == s
    decreases |s|
  {
    if s != [] {
      SingleSpacedTail(s);
      CollapseFixpoint(s[1..]);
      assert [s[0]] + s[1..] == s;
      if IsSpace(s[0]) {
        TrimStartOf([s[0]], s[1..]);
        assert [s[0]] + s[1..] == s;
      }
    }
  }

  /** Collapsing removes white space only. */
  lemma {:induction false} CollapseKeepsText(s: string)
    ensures NonSpace(CollapseSpaces(s)) == NonSpace(s)
    decreases |s|
  {
    if s == [] {
    } else if IsSpace(s[0]) {
      var t := TrimStart(s);
      CollapseKeepsText(t);
      NonSpaceAppend(" ", CollapseSpaces(t));
      TrimStartKeepsText(s);
    } else {
      CollapseKeepsText(s[1..]);
      NonSpaceAppend([s[0]], CollapseSpaces(s[1..]));
    }
  }

  // ------------------------------------------------------------------
  // text.trim().replace(/\s+/g, ' ')
  // ------------------------------------------------------------------

  /** `TrimStart` drops exactly a leading white-space run. */
  lemma {:induction false} TrimStartOf(a: string, b: string)
    requires AllSpace(a) && (b == [] || !IsSpace(b[0]))
    ensures TrimStart(a + b) == b
    decreases |a|
  {
    if a == [] {
      assert a + b == b;
    } else {
      assert (a + b)[1..] == a[1..] + b;
      TrimStartOf(a[1..], b);
    }
  }

  /** Trimming the start of `x + z` stays within `x` when `x` ends in a non-space. */
  lemma {:induction false} TrimStartAppend(x: string, z: string)
    requires x != [] && !IsSpace(x[|x| - 1])
    ensures var t := TrimStart(x);
      && t != [] && t[|t| - 1] == x[|x| - 1]
      && TrimStart(x + z) == t + z
    decreases |x|
  {
    assert (x + z)[0] == x[0];
    if IsSpace(x[0]) {
      assert (x + z)[1..] == x[1..] + z;
      assert x[1..][|x| - 2] == x[|x| - 1];
      TrimStartAppend(x[1..], z);
    }
  }

  /** A white-space start of `x + z` is skipped within `x` when `x` ends in a non-space. */
  lemma CollapseSpaceStep(x: string, z: string)
    requires x != [] && !IsSpace(x[|x| - 1]) && IsSpace(x[0])
    ensures var t := TrimStart(x);
      && t != [] && t[|t| - 1] == x[|x| - 1] && |t| < |x|
      && CollapseSpaces(x + z) == " " + CollapseSpaces(t + z)
      && CollapseSpaces(x) == " " + CollapseSpaces(t)
  {
    TrimStartAppend(x, z);
    assert (x + z)[0] == x[0];
  }

  /** A non-space start of `x + z` is kept, and collapsing goes on after it. */
  lemma CollapseCharStep(x: string, z: string)
    requires x != [] && !IsSpace(x[0])
    ensures CollapseSpaces(x + z) == [x[0]] + CollapseSpaces(x[1..] + z)
    ensures CollapseSpaces(x) == [x[0]] + CollapseSpaces(x[1..])
  {
    assert (x + z)[0] == x[0];
    assert (x + z)[1..] == x[1..] + z;
  }

  /**
   * Collapsing works piecewise across a cut just after a non-space
   * character: no white-space run straddles the cut.
   */
  lemma {:induction false} CollapseAppend(x: string, z: string)
    requires x != [] && !IsSpace(x[|x| - 1])
    ensures CollapseSpaces(x + z) == CollapseSpaces(x) + CollapseSpaces(z)
    decreases |x|
  {
    if IsSpace(x[0]) {
      var t := TrimStart(x);
      TrimStartAppend(x, z);
      CollapseAppend(t, z);
      CollapseSpaceJoin(x, z);
    } else if |x| == 1 {
      assert x[1..] + z == z;
      CollapseCharJoin(x, z);
    } else {
      CollapseAppend(x[1..], z);
      CollapseCharJoin(x, z);
    }
  }

  /** The white-space case of `CollapseAppend`, given the claim for the trimmed rest. */
  lemma CollapseSpaceJoin(x: string, z: string)
    requires x != [] && !IsSpace(x[|x| - 1]) && IsSpace(x[0])
    requires CollapseSpaces(TrimStart(x) + z) == CollapseSpaces(TrimStart(x)) + CollapseSpaces(z)
    ensures CollapseSpaces(x + z) == CollapseSpaces(x) + CollapseSpaces(z)
  {
    CollapseSpaceStep(x, z);
    ConcatAssoc(" ", CollapseSpaces(TrimStart(x)), CollapseSpaces(z));
  }

  /** The non-space case of `CollapseAppend`, given the claim for the tail. */
  lemma CollapseCharJoin(x: string, z: string)
    requires x != [] && !IsSpace(x[0])
    requires CollapseSpaces(x[1..] + z) == CollapseSpaces(x[1..]) + CollapseSpaces(z)
    ensures CollapseSpaces(x + z) == CollapseSpaces(x) + CollapseSpaces(z)
  {
    CollapseCharStep(x, z);
    ConcatAssoc([x[0]], CollapseSpaces(x[1..]), CollapseSpaces(z));
  }

  lemma ConcatAssoc(a: string, b: string, c: string)
    ensures a + (b + c) == (a + b) + c
  {
  }

  /**
   * Every white-space run between a non-space character and what follows
   * it becomes exactly one `' '`: `replace(/\s+/g, ' ')` neither keeps
   * the run nor drops it.
   */
  lemma CollapseRun(x: string, w: string, y: string)
    requires x != [] && !IsSpace(x[|x| - 1])
    requires w != [] && AllSpace(w)
    requires y == [] || !IsSpace(y[0])
    ensures CollapseSpaces(x + w + y) == CollapseSpaces(x) + " " + CollapseSpaces(y)
  {
    ConcatAssoc(x, w, y);
    CollapseAppend(x, w + y);
    CollapseRunStart(w, y);
    ConcatAssoc(CollapseSpaces(x), " ", CollapseSpaces(y));
  }

  /** A leading white-space run collapses to one space. */
  lemma CollapseRunStart(w: string, y: string)
    requires w != [] && AllSpace(w)
    requires y == [] || !IsSpace(y[0])
    ensures CollapseSpaces(w + y) == " " + CollapseSpaces(y)
  {
    TrimStartOf(w, y);
    assert (w + y)[0] == w[0];
  }

  /** Normalised text: no white space at either end, single spaces inside. */
  predicate IsNormalized(s: string) {
    SingleSpaced(s) && (s == [] || (!IsSpace(s[0]) && !IsSpace(s[|s| - 1])))
  }

  /** The whitespace normalisation applied to every extracted message. */
  function Normalize(s: string): string {
    CollapseSpaces(Trim(s))
  }

  /** The output of `Normalize` is normalised and keeps every other character. */
  lemma NormalizeSpec(s: string)
    ensures IsNormalized(Normalize(s))
    ensures NonSpace(Normalize(s)) == NonSpace(s)
  {
    var t := Trim(s);
    assert IsNormalized(Normalize(s)) by {
      CollapseStart(t);
      if t != [] {
        CollapseEnd(t);
      }
      CollapseSingleSpaced(t);
    }
    assert NonSpace(Normalize(s)) == NonSpace(s) by {
      CollapseKeepsText(t);
      TrimKeepsText(s);
    }
  }

  /** Normalised text is left unchanged by `Normalize`. */
  lemma NormalizeFixpoint(s: string)
    requires IsNormalized(s)
    ensures Normalize(s) == s
  {
    assert TrimStart(s) == s;
    assert TrimEnd(s) == s;
    CollapseFixpoint(s);
  }

  /** Normalising twice is normalising once. */
  lemma NormalizeIdempotent(s: string)
    ensures Normalize(Normalize(s)) == Normalize(s)
  {
    NormalizeSpec(s);
    NormalizeFixpoint(Normalize(s));
  }

  /**
   * Two normalised pieces separated by any non-empty white-space run are
   * normalised to the two pieces joined by a single space.
   */
  lemma NormalizeRun(a: string, w: string, b: string)
    requires a != [] && IsNormalized(a)
    requires w != [] && AllSpace(w)
    requires b != [] && IsNormalized(b)
    ensures Normalize(a + w + b) == a + " " + b
  {
    var s := a + w + b;
    assert s[0] == a[0] && s[|s| - 1] == b[|b| - 1];
    assert TrimStart(s) == s;
    assert TrimEnd(s) == s;
    CollapseRun(a, w, b);
    CollapseFixpoint(a);
    CollapseFixpoint(b);
  }

  /** A normalised text has no line break. */
  lemma NormalizedHasNoNewline(s: string)
    requires IsNormalized(s)
    ensures '\n' !in s
  {
    if '\n' in s {
      var i :| 0 <= i < |s| && s[i] == '\n';
      assert IsSpace(s[i]);
    }
  }

  // ------------------------------------------------------------------
  // split('\n')[0], substring(0, n), join('|')
  // ------------------------------------------------------------------

  /** `s.split('\n')[0]`: the text before the first line break. */
  function FirstLine(s: string): (r: string)
    ensures |r| <= |s| && r == s[..|r|]
    ensures '\n' !in r
    ensures |r| < |s| ==> s[|r|] == '\n'
  {
    if s == [] || s[0] == '\n' then []
    else [s[0]] + FirstLine(s[1..])
  }

  /** Text without a line break is its own first line. */
  lemma FirstLineWhole(s: string)
    requires '\n' !in s
    ensures FirstLine(s) == s
  {
    var r := FirstLine(s);
    assert r <= s;
  }

  /** The first line of normalised text is the whole text. */
  lemma NormalizedFirstLine(s: string)
    ensures FirstLine(Normalize(s)) == Normalize(s)
  {
    var n := Normalize(s);
    NormalizeSpec(s);
    NormalizedHasNoNewline(n);
    FirstLineWhole(n);
  }

  /** `s.substring(0, n)`: the first `n` characters, or all of a shorter `s`. */
  function Prefix(s: string, n: nat): (r: string)
    ensures r <= s
    ensures |r| == if |s| <= n then |s| else n
  {
    if |s| <= n then s else s[..n]
  }

  /**
   * `s.length > n ? s.substring(0, n) + '...' : s`: text longer than `n`
   * cut to its first `n` characters followed by an ellipsis.
   */
  function Truncate(s: string, n: nat): (r: string)
    ensures |r| <= n + 3
    ensures |s| <= n ==> r == s
    ensures |s| > n ==> |r| == n + 3 && r[..n] == s[..n] && r[n..] == "..."
  {
    if |s| > n then s[..n] + "..." else s
  }

  /** Truncation applied a second time changes nothing: there is never a double ellipsis. */
  lemma TruncateIdempotent(s: string, n: nat)
    ensures Truncate(Truncate(s, n), n) == Truncate(s, n)
  {
    if |s| > n {
      assert Truncate(s, n)[..n] == s[..n];
    }
  }

  /** A text truncated to `m` is not cut again by a cap `n` at least `m + 3`. */
  lemma TruncateWithinCap(s: string, m: nat, n: nat)
    requires m + 3 <= n
    ensures Truncate(Truncate(s, m), n) == Truncate(s, m)
  {
  }

  /** `parts.join([sep])`. */
  function Join(parts: seq<string>, sep: char): string
  {
    if |parts| == 0 then ""
    else if |parts| == 1 then parts[0]
    else parts[0] + [sep] + Join(parts[1..], sep)
  }

  /** `s.split(sep)` for a one-character separator; never empty. */
  function Split(s: string, sep: char): (r: seq<string>)
    ensures |r| > 0
  {
    if s == [] then [""]
    else
      var rest := Split(s[1..], sep);
      if s[0] == sep then [""] + rest
      else [[s[0]] + rest[0]] + rest[1..]
  }

  lemma {:induction false} SplitPlain(a: string, sep: char)
    requires sep !in a
    ensures Split(a, sep) == [a]
  {
    if a != [] {
      SplitPlain(a[1..], sep);
      assert a[0] != sep;
      assert [a[0]] + a[1..] == a;
    }
  }

  lemma {:induction false} SplitAfterPlain(a: string, sep: char, b: string)
    requires sep !in a
    ensures Split(a + [sep] + b, sep) == [a] + Split(b, sep)
  {
    if a == [] {
      assert a + [sep] + b == [sep] + b;
      assert ([sep] + b)[1..] == b;
    } else {
      assert (a + [sep] + b)[1..] == a[1..] + [sep] + b;
      assert (a + [sep] + b)[0] == a[0] != sep;
      SplitAfterPlain(a[1..], sep, b);
      assert [a[0]] + a[1..] == a;
    }
  }

  /** The first piece of `s.split('\n')` is the first line of `s`. */
  lemma {:induction false} SplitFirstLine(s: string)
    ensures Split(s, '\n')[0] == FirstLine(s)
  {
    if s != [] {
      SplitFirstLine(s[1..]);
    }
  }

  /** Splitting a join of separator-free parts gives the parts back. */
  lemma {:induction false} SplitJoin(parts: seq<string>, sep: char)
    requires |parts| > 0
    requires forall i :: 0 <= i < |parts| ==> sep !in parts[i]
    ensures Split(Join(parts, sep), sep) == parts
  {
    if |parts| == 1 {
      SplitPlain(parts[0], sep);
    } else {
      SplitJoin(parts[1..], sep);
      SplitAfterPlain(parts[0], sep, Join(parts[1..], sep));
    }
  }

  // ------------------------------------------------------------------
  // includes()
  // ------------------------------------------------------------------

  /** `t` occurs in `s` starting at index `i`. */
  predicate OccursAt(s: string, t: string, i: int) {
    0 <= i && i + |t| <= |s| && s[i..i + |t|] == t
  }

  /** `s.includes(t)`. */
  predicate Contains(s: string, t: string) {
    exists i | 0 <= i <= |s| - |t| :: OccursAt(s, t, i)
  }

  /** Every string includes itself. */
  lemma ContainsSelf(s: string)
    ensures Contains(s, s)
  {
    assert OccursAt(s, s, 0);
  }
}

=== FILE: titles.dfy ===
/**
 * Where a tab title comes from: the placeholder test, the host's own
 * conversation-title element, and the fallback to the first message.
 */
module Titles {
  import opened Wrappers
  import opened Text
  import opened Config

  /**
   * The placeholder test of the `<title>` observer: the title includes one
   * of the generic titles.
   */
  predicate IsGeneric(current: string) {
    exists j | 0 <= j < |GenericTitles| :: Contains(current, GenericTitles[j])
  }

  /**
   * The placeholder test of `enforceTitle`: the title includes one of the
   * generic titles or equals it. Combining the two booleans with the bitwise
   * `|` gives the same truth value as `||`.
   */
  predicate IsGenericOrEqual(current: string) {
    exists j | 0 <= j < |GenericTitles| ::
      Contains(current, GenericTitles[j]) || current == GenericTitles[j]
  }

  /** The equality disjunct adds nothing: both placeholder tests agree. */
  lemma GenericChecksAgree(current: string)
    ensures IsGenericOrEqual(current) <==> IsGeneric(current)
  {
    if IsGenericOrEqual(current) {
      var j :| 0 <= j < |GenericTitles| &&
        (Contains(current, GenericTitles[j]) || current == GenericTitles[j]);
      ContainsSelf(current);
      assert Contains(current, GenericTitles[j]);
    }
  }

  /** Each configured generic title is itself recognised as a placeholder. */
  lemma GenericTitleIsGeneric(j: nat)
    requires j < |GenericTitles|
    ensures IsGeneric(GenericTitles[j])
  {
    ContainsSelf(GenericTitles[j]);
  }

  /** A localised variant such as "Gemini - 我的內容" is recognised through `includes`. */
  lemma LocalizedVariantIsGeneric()
    ensures IsGeneric("Gemini - 我的內容")
  {
    assert OccursAt("Gemini - 我的內容", GenericTitles[2], 9);
  }

  /** The host's `.conversation-title` element, when it exists. */
  datatype TitleElement = TitleElement(innerText: string, textContent: string)

  /** `innerText || textContent || ''`. */
  function ElementText(e: TitleElement): string {
    if e.innerText != "" then e.innerText else e.textContent
  }

  /**
   * The conversation title the host shows: the element's trimmed text, or
   * nothing when the element is missing or holds only white space.
   */
  function ReadConversationTitle(el: Option<TitleElement>): (r: Option<string>)
    ensures r.Some? <==> el.Some? && !AllSpace(ElementText(el.value))
    ensures r.Some? ==> r.value != [] && r.value == Trim(ElementText(el.value))
  {
    if el.None? then None
    else
      var text := ElementText(el.value);
      TrimEmptyIff(text);
      if Trim(text) == [] then None else Some(Trim(text))
  }

  /**
   * The tab title `updateSystem` derives: the host's conversation title, or,
   * when that is missing, the first line of the first extracted message cut
   * to 40 characters; either capped at 60. Nothing when both are empty.
   */
  function DeriveTitle(conversationTitle: Option<string>, texts: seq<string>): (r: Option<string>)
    ensures r.Some? ==> r.value != "" && |r.value| <= MaxTitleLength + 3
    ensures conversationTitle.GetOr("") != "" ==>
      r == Some(Truncate(conversationTitle.value, MaxTitleLength))
    ensures conversationTitle.GetOr("") == "" && |texts| > 0 ==>
      var line := FirstLine(texts[0]);
      r == if line == "" then None else Some(Truncate(line, FallbackTitleLength))
    ensures conversationTitle.GetOr("") == "" && texts == [] ==> r == None
  {
    var title := conversationTitle.GetOr("");
    var title := if title == "" && |texts| > 0
      then Truncate(FirstLine(texts[0]), FallbackTitleLength)
      else title;
    if title == "" then None
    else Some(Truncate(title, MaxTitleLength))
  }
}

=== FILE: wrappers.dfy ===
/** The optional value used where the script works with `null` or `undefined`. */
module Wrappers {

  datatype Option<+T> = None | Some(value: T) {

    /** The value inside `Some`, or `default` for `None`. */
    function GetOr(default: T): T {
      match this
      case Some(v) => v
      case None => default
    }
  }
}
